=== FILE: README.md ===
# DataFrameParallelizer, modelled in Dafny

This project models the apply-with-error-isolation engine `DataFrameParallelizer`
of `dkulib/parallelizer/parallelizer.py`. The engine applies a user function to
every row of a DataFrame, either one row at a time or in batches of rows. Each
call is wrapped so that a caught exception becomes error columns on the affected
rows (Log mode) or aborts the run (Fail mode). The results are then assembled
into one output table, and the failures are counted.

The model is functional. Rows are `map<string, Value>`. The user function and
the batch response parser are function values that return `Ok(value)` or
`Raise(exception)`. The thread pool becomes a sequential map. The order in which
the pool completes the units is a parameter: any permutation of the units.

Modules:

- `Values`: Python values, their truthiness, rows and work units.
- `Errors`: exceptions (class, base classes, `args`), the `except` matching of
  the wrapper, and the outcome of a call.
- `Setup`: the constructor's validation and the output column names.
- `Chunking`: batching rows into consecutive chunks (`chunked`) and `ceil(n / size)`.
- `Invocation`: the per-unit wrapper `_apply_function_and_parse_response`.
- `Kwargs`: keyword-argument sanitising in `run`.
- `Assembly`: column order, the drop rules, and the failure count (`_convert_results_to_df`).
- `Engine`: `run` itself, with the completion order as a parameter.
- `Sequences`: shared sequence helpers (flatten, map, count, permutations).

Behaviour of the code worth knowing:

- The batch response parser is called with only `batch`, `response` and
  `output_column_names`. The caller's extra keyword arguments are not forwarded to it.
- Each output column name is generated against the input columns only, not
  against the names generated before it.
- Output rows are not put back in input order. They stay in completion order,
  and only the rows inside one batch keep their order.
- An empty row dict counts as "not given". In row mode such a row makes the
  wrapper raise `TypeError` before its `try` block, which aborts the run. The
  model reproduces this. The lemmas about whole runs require non-empty rows.
- If the generated response name is also an input column, the reindexed
  frame has two columns with that label. The failure count then selects a
  DataFrame, not a column, and `sum` over it raises `TypeError`. The model
  reproduces this.

## Model

| member | source | states |
|---|---|---|
| Setup.New | dkulib/parallelizer/parallelizer.py:76-100 | Construction succeeds iff the mode is Fail or the catch set is non-empty, and batch support has a parser. Log mode with nothing to catch fails first with its `ValueError`, then a missing parser with its own. On success every argument is stored unchanged. |
| Setup.DefaultsNeedExceptions | dkulib/parallelizer/parallelizer.py:79-80 | With the default arguments (Log mode, empty exception tuple) the constructor raises the missing-exceptions `ValueError`. |
| Setup.OutputColumnNamesFresh | dkulib/parallelizer/parallelizer.py:102-110 | The four generated names are distinct and clash with no input column exactly when `generate_unique` avoids the input columns on each logical field and gives the four fields four different names. Generating each name against the input columns alone guarantees neither. |
| Chunking.CeilDivIsCeiling | dkulib/parallelizer/parallelizer.py:220 | The unit count is the ceiling of `n / batch_size`: the least `q` with `q * size >= n`. |
| Chunking.Chunks | dkulib/parallelizer/parallelizer.py:219-220 | There are `ceil(n / size)` chunks. Each holds between 1 and `size` rows, and every chunk but the last holds exactly `size`. |
| Chunking.ChunkContents | dkulib/parallelizer/parallelizer.py:219 | Chunk `i` is the input slice from `i * size` to `min((i + 1) * size, n)`, so the chunks are consecutive and in input order. |
| Chunking.FlattenChunks | dkulib/parallelizer/parallelizer.py:244 | Flattening the chunks gives back the input rows exactly. |
| Engine.Units | dkulib/parallelizer/parallelizer.py:211-223 | Row mode gives one unit per row, in order. Batch mode gives units of 1 to `batch_size` rows, all full except the last. The unit count matches `len_generator`, and flattening the units gives back the rows. |
| Invocation.Initialise | dkulib/parallelizer/parallelizer.py:126-132 | The copy holds the row's keys plus the four output names. The output names hold `""`, and every other key keeps its value. |
| Invocation.Annotate | dkulib/parallelizer/parallelizer.py:158-166 | The row gains the three error columns, which describe the exception when the names are distinct. No other key changes. |
| Invocation.ErrorMessages | dkulib/parallelizer/parallelizer.py:143-145 | It raises `KeyError` iff some parsed row lacks the error-message column. Otherwise the list is non-empty iff some row's error message is truthy, and it holds only truthy messages taken from the rows. |
| Invocation.ErrorMessagesInOrder | dkulib/parallelizer/parallelizer.py:143-145 | The list holds exactly one entry per row with a truthy error message, in row order. Row `i`'s message sits at the number of message-carrying rows before it. This pins the list, and so `str(errors)` in the `BatchError`. |
| Invocation.BatchFailure | dkulib/parallelizer/parallelizer.py:29-30 | The synthetic `BatchError` is a `ValueError`, and the wrapper's `except` clause matches it whatever the catch set. |
| Invocation.WrapRow | dkulib/parallelizer/parallelizer.py:126-161 | Row mode. On success: `response` holds the returned value and the error fields are `""`. On a raise: the result is a row iff the exception is caught and the mode is Log; that row has `response == ""` and the three error fields from the exception. Otherwise the same exception propagates. Pre-existing keys outside the output names never change. |
| Invocation.WrapBatch | dkulib/parallelizer/parallelizer.py:139-167 | Batch mode. If the function raises, the parser is missing (`TypeError`) or the parser raises: every row of the copied batch records the error, or the error propagates. If no parsed row has an error message, the parser's rows are returned unchanged. If some have one, a `BatchError` over `str` of the list of messages is raised. Fail mode propagates it. Log mode writes its three error fields on every parsed row and keeps every other cell, the response included. A parsed row without the column raises `KeyError` inside the `try`. When that is recovered, the parsed rows record it in the same way. A length-preserving parser keeps the batch length. |
| Invocation.BatchErrorAnnotatesParsed | dkulib/parallelizer/parallelizer.py:143-166 | In Log mode, when some parsed rows carry an error message, the wrapper returns exactly the parsed rows, each annotated with one `BatchError` built from `str` of the list of messages. |
| Invocation.BatchErrorKeepsResponses | dkulib/parallelizer/parallelizer.py:143-166 | In Log mode, when some parsed rows carry an error message, every parsed row gets the same `BatchError` fields. Each row still keeps the response the parser gave it, so a row the parser answered is not counted as failed. |
| Invocation.Wrap | dkulib/parallelizer/parallelizer.py:124-136 | A truthy row together with a truthy batch raises the configuration `ValueError`. Neither a truthy row nor any batch raises `TypeError`. A returned unit is a single row iff the row was truthy. |
| Invocation.BothGivenIgnoresFunction | dkulib/parallelizer/parallelizer.py:124-125 | When both a row and a batch are given, the outcome is the same for any user function, so the function is never consulted. |
| Invocation.FailModeReturnsNoErrors | dkulib/parallelizer/parallelizer.py:148-150 | In Fail mode, every row the wrapper returns has a falsy error message: nothing was recovered. |
| Kwargs.PoolKwargs | dkulib/parallelizer/parallelizer.py:225-229 | The pool arguments are `output_column_names` plus the caller's keys, minus `function`, `row` and `batch`, and minus `batch_response_parser` outside batch mode. The caller's values override the generated names. |
| Kwargs.ForwardedKwargs | dkulib/parallelizer/parallelizer.py:225-229 | The user function sees exactly the caller's keyword arguments minus the reserved keys, `output_column_names`, and `batch_response_parser` outside batch mode, with their values unchanged. |
| Assembly.Drop | dkulib/parallelizer/parallelizer.py:179-187 | A column survives iff it carries none of the dropped labels, and the list never grows. |
| Assembly.FinalColumns | dkulib/parallelizer/parallelizer.py:176-187 | A column is in the output iff it is an input or output column, it is not `error_raw` unless verbose, and it is not an error column in Fail mode. |
| Assembly.LayoutLogVerbose | dkulib/parallelizer/parallelizer.py:176 | Log mode, verbose: the input columns in order, then `response`, `error_message`, `error_type`, `error_raw`. |
| Assembly.LayoutLogQuiet | dkulib/parallelizer/parallelizer.py:179-180 | With fresh output names, in Log mode, not verbose: the input columns, then `response`, `error_message`, `error_type`. |
| Assembly.LayoutFail | dkulib/parallelizer/parallelizer.py:181-187 | With fresh output names, in Fail mode: the input columns, then `response` only. |
| Assembly.CountRestrict | dkulib/parallelizer/parallelizer.py:246 | Reindexing to columns that include `response` does not change how many rows have `response == ""`. |
| Assembly.Assemble | dkulib/parallelizer/parallelizer.py:169-188 | The frame has the final columns and one record per result row, holding that row's cells in those columns. `num_error` counts result rows with `response == ""` and `num_success = n - num_error`. A dropped response column raises `KeyError`. A response label that occurs more than once selects a DataFrame at line 246, and `sum` over it raises `TypeError`. Assembly returns iff the label occurs exactly once. |
| Assembly.ResponseOccurrences | dkulib/parallelizer/parallelizer.py:176-188 | With distinct output names, the response label occurs in the output columns exactly once more than in the input columns: neither drop rule removes it, and the input's own columns of that name stay. |
| Assembly.AssembleNeedsFreshResponse | dkulib/parallelizer/parallelizer.py:176-246 | With distinct output names, assembly returns iff the response name is not an input column. Otherwise it raises the `TypeError` of line 246. |
| Engine.Collect | dkulib/parallelizer/parallelizer.py:242-243 | The results are the unit outcomes in completion order when every unit returned. Otherwise the raised exception is the first one in completion order. |
| Engine.Gather | dkulib/parallelizer/parallelizer.py:242-247 | Collection succeeds iff every unit returned and the response label occurs exactly once among the final columns. Otherwise it raises a unit's exception, `KeyError` for a dropped response column, or the `TypeError` of a duplicated response label. The output records are the per-unit rows in some order, as a multiset. The two counts sum to the input row count. |
| Engine.Run | dkulib/parallelizer/parallelizer.py:214-247 | Batch size 0 raises `ZeroDivisionError` (from `ceil(n / 0)`). A non-positive worker count raises the pool's `ValueError`. Otherwise `run` returns iff every unit returned and the response label occurs exactly once among the final columns. With every unit returned, it raises `KeyError` for a dropped response column or `TypeError` for a duplicated label. Otherwise it raises an exception some unit raised. On return the frame has the final columns, and its records are the units' rows as a multiset. `num_error` counts records with an empty response, and the two counts sum to the input row count. |
| Engine.DispatchKeepsLength | dkulib/parallelizer/parallelizer.py:232-241 | A unit that returns has as many rows as it was given, when the parser returns one row per batch row. |
| Engine.GatherOrderIrrelevant | dkulib/parallelizer/parallelizer.py:242-247 | Whatever the unit outcomes, any two completion orders agree on whether collection returns. When it returns, they agree on the columns, the multiset of output records, and both counts. |
| Engine.RunOrderIrrelevant | dkulib/parallelizer/parallelizer.py:242-243 | For any two completion orders, `run` returns for both or for neither. When it returns, both give the same columns, the same multiset of records, and the same counts. |
| Engine.OutcomesKeepRowCount | dkulib/parallelizer/parallelizer.py:211-244 | When every unit returns and the parser returns one row per batch row, flattening the units' results gives exactly one row per input row. |
| Engine.RunKeepsRowCount | dkulib/parallelizer/parallelizer.py:244 | When `run` returns and the parser returns one row per batch row, the output has exactly one record per input row. |
| Engine.OutcomesIsolateErrors | dkulib/parallelizer/parallelizer.py:148-166 | Log mode, row by row, where every exception the function raises is caught: every unit returns and yields one row per input row. The rows with an empty response are exactly those on which the function raised or returned `""`. |
| Engine.LogModeIsolatesErrors | dkulib/parallelizer/parallelizer.py:148-166 | Log mode, row by row, with output names that are distinct and clash with no input column, and where every exception the function raises is caught: `run` returns one record per row. `num_error` is the number of rows on which the function raised or returned `""`, and `num_success` is the rest. |
| Engine.OutcomesPropagate | dkulib/parallelizer/parallelizer.py:148-150 | In row mode, a unit raises exactly when the function raised on its row an exception that is not recovered, and it raises that same exception. |
| Engine.UnrecoveredErrorAborts | dkulib/parallelizer/parallelizer.py:148-150 | In row mode, if the function raises on some row an exception that is not recovered (Fail mode, or outside the catch set), `run` raises. The caller sees an exception the function raised on one of the rows. |

## Left out

- The thread pool, `as_completed` and the `tqdm` progress bar: only their effect on result order is modelled, as the `order` permutation. Concurrency and progress display are not.
- Logging and `perf_counter` timing are not modelled. The log lines are side effects, except that they read the user function's `__name__` eagerly.
- Engine.Run: the user function is assumed to have a `__name__`. The log lines at dkulib/parallelizer/parallelizer.py:216 and :222 read it before any unit is submitted, so a callable without one (a `functools.partial`, a callable instance) makes `run` raise `AttributeError`. The wrapper's warning at line 152 reads it too, in Log mode only.
- Assembly.Assemble: when an output name is also an input column, `astype` at dkulib/parallelizer/parallelizer.py:177 casts that column to the input's dtype, and the cast can raise before line 246 is reached. dtypes are not modelled, so the model reports line 246's `TypeError` for a duplicated response label instead.
- pandas dtype handling: `astype(output_schema)` and `reindex` NaN filling are reduced to the column list, the drop rules, and cells left missing. A response compares equal to `""` only when it is the string `""`. That `str()` of another object could also give `""` is not modelled.
- The text of `str(error)`, the module-qualified class name, `str(error.args)` and `str(list)` come from Python reflection. They are opaque functions in `Errors.Reflection`.
- `generate_unique` is not part of this model. It is an opaque function parameter. Nothing is claimed about the four names being distinct from each other or from the input columns. The lemmas that need this take it as a precondition.
- Engine.Run: requires that the caller passes no `output_column_names` keyword argument. Such an argument would replace the generated names inside the wrapper but not in the assembly. Kwargs.PoolKwargs models the override itself.
- Engine.Run: requires a non-negative batch size in batch mode. What `more_itertools.chunked` does with a negative size is not part of this model. Size 0 is modelled (`ZeroDivisionError`).
- `math.ceil(n / batch_size)` goes through a float. The model uses exact integer ceiling, which agrees for every row count below 2^53.
- The user function mutating the rows or batch it is given, which the parser would then see: values here are immutable.
- Keyword arguments that clash with `ThreadPoolExecutor.submit`'s own parameters are not modelled.
- Engine.LogModeIsolatesErrors, Engine.OutcomesIsolateErrors, Engine.OutcomesPropagate and Engine.UnrecoveredErrorAborts: stated for row mode only. Batch mode is covered per unit by Invocation.WrapBatch.
- tests/dku_config/test_custom_check.py tests a custom-check module whose code is not part of this model.

=== FILE: assembly.dfy ===
/** The result assembler (`_convert_results_to_df` and the counts at the end
    of `run`): column order, the drop rules, and the failure count. */
module Assembly {
  import opened Values
  import opened Errors
  import opened Setup
  import opened Sequences

  /** The input DataFrame: its columns in order and its rows. */
  datatype Table = Table(columns: seq<string>, rows: seq<Row>)

  /** The output DataFrame: its columns in order and one record per result
      row; a column missing from a record stands for a NaN cell. */
  datatype Frame = Frame(columns: seq<string>, records: seq<Row>)

  /** What `run` returns, with the counts it logs. */
  datatype Report = Report(frame: Frame, numSuccess: int, numError: nat)

  /** `DataFrame.drop(labels=...)` on the column axis: every column carrying
      one of the labels goes, the rest keep their order. */
  function Drop(columns: seq<string>, labels: set<string>): (r: seq<string>)
    ensures forall c :: c in r <==> c in columns && c !in labels
    ensures |r| <= |columns|
  {
    if |columns| == 0 then []
    else (if columns[0] in labels then [] else [columns[0]]) + Drop(columns[1..], labels)
  }

  lemma {:induction false} DropConcat(a: seq<string>, b: seq<string>, labels: set<string>)
    ensures Drop(a + b, labels) == Drop(a, labels) + Drop(b, labels)
  {
    if |a| == 0 {
      assert a + b == b;
    } else {
      assert (a + b)[1..] == a[1..] + b;
      DropConcat(a[1..], b, labels);
    }
  }

  lemma {:induction false} DropNothing(a: seq<string>, labels: set<string>)
    requires forall c :: c in a ==> c !in labels
    ensures Drop(a, labels) == a
  {
    if |a| > 0 {
      DropNothing(a[1..], labels);
    }
  }

  /** Whether column `c` survives into the output. */
  predicate KeptColumn(c: string, input: seq<string>, names: OutputColumns, verbose: bool, mode: ErrorHandling) {
    && (c in input || c in names.NameSet())
    && (verbose || c != names.errorRaw)
    && (mode == Log || c !in names.ErrorFields())
  }

  /** The output columns: the input columns, then the output columns in their
      fixed order, without `error_raw` unless verbose, and without any error
      column in Fail mode. */
  function FinalColumns(input: seq<string>, names: OutputColumns, verbose: bool, mode: ErrorHandling): (cols: seq<string>)
    ensures forall c :: c in cols <==> KeptColumn(c, input, names, verbose, mode)
  {
    var all := input + names.Fields();
    assert forall c :: c in all <==> c in input || c in names.NameSet();
    var kept := if verbose then all else Drop(all, {names.errorRaw});
    assert forall c :: c in kept <==> c in all && (verbose || c != names.errorRaw);
    if mode == Fail then
      Drop(kept, names.ErrorFields())
    else
      assert forall c :: c in kept <==> KeptColumn(c, input, names, verbose, mode);
      kept
  }

  lemma DropSingle(x: string, labels: set<string>)
    ensures Drop([x], labels) == if x in labels then [] else [x]
  {
    assert [x][1..] == [];
  }

  /** Dropping from the four output names, one name at a time. */
  lemma DropFields(names: OutputColumns, labels: set<string>)
    ensures Drop(names.Fields(), labels) ==
      (if names.response in labels then [] else [names.response])
      + (if names.errorMessage in labels then [] else [names.errorMessage])
      + (if names.errorType in labels then [] else [names.errorType])
      + (if names.errorRaw in labels then [] else [names.errorRaw])
  {
    var a, b, c, d := [names.response], [names.errorMessage], [names.errorType], [names.errorRaw];
    assert names.Fields() == a + b + c + d;
    DropConcat(a + b + c, d, labels);
    DropConcat(a + b, c, labels);
    DropConcat(a, b, labels);
    DropSingle(names.response, labels);
    DropSingle(names.errorMessage, labels);
    DropSingle(names.errorType, labels);
    DropSingle(names.errorRaw, labels);
  }

  /** Log mode, verbose: the input columns followed by all four output columns. */
  lemma LayoutLogVerbose(input: seq<string>, names: OutputColumns)
    ensures FinalColumns(input, names, true, Log) == input + names.Fields()
  {
  }

  /** Log mode, not verbose: `error_raw` is dropped. */
  lemma LayoutLogQuiet(input: seq<string>, names: OutputColumns)
    requires FreshNames(input, names)
    ensures FinalColumns(input, names, false, Log) == input + [names.response, names.errorMessage, names.errorType]
  {
    var raw := {names.errorRaw};
    assert Drop(input, raw) == input by {
      DropNothing(input, raw);
    }
    assert Drop(names.Fields(), raw) == [names.response, names.errorMessage, names.errorType] by {
      DropFields(names, raw);
    }
    calc {
      FinalColumns(input, names, false, Log);
      Drop(input + names.Fields(), raw);
      { DropConcat(input, names.Fields(), raw); }
      Drop(input, raw) + Drop(names.Fields(), raw);
    }
  }

  /** Fail mode: only the response column follows the input columns. */
  lemma LayoutFail(input: seq<string>, names: OutputColumns, verbose: bool)
    requires FreshNames(input, names)
    ensures FinalColumns(input, names, verbose, Fail) == input + [names.response]
  {
    var errs := names.ErrorFields();
    DropNothing(input, errs);
    if verbose {
      DropConcat(input, names.Fields(), errs);
      DropFields(names, errs);
    } else {
      LayoutLogQuiet(input, names);
      assert FinalColumns(input, names, verbose, Fail) == Drop(FinalColumns(input, names, false, Log), errs);
      DropConcat(input, [names.response, names.errorMessage, names.errorType], errs);
      DropShort(names);
    }
  }

  lemma DropShort(names: OutputColumns)
    requires names.Distinct()
    ensures Drop([names.response, names.errorMessage, names.errorType], names.ErrorFields()) == [names.response]
  {
    var a, b, c := [names.response], [names.errorMessage], [names.errorType];
    assert [names.response, names.errorMessage, names.errorType] == a + b + c;
    DropConcat(a + b, c, names.ErrorFields());
    DropConcat(a, b, names.ErrorFields());
    DropSingle(names.response, names.ErrorFields());
    DropSingle(names.errorMessage, names.ErrorFields());
    DropSingle(names.errorType, names.ErrorFields());
  }

  /** `reindex(columns=...)` on one record: cells outside `columns` go, and
      a column the record lacks stays missing (a NaN cell). */
  function Restrict(row: Row, columns: seq<string>): Row {
    map c | c in row && c in columns :: row[c]
  }

  /** A row counted as failed: its response cell is the empty sentinel. */
  function FailedRow(response: string): Row -> bool {
    row => response in row && row[response] == Empty
  }

  /** Restricting the records to columns that include the response column
      leaves the failure count unchanged. */
  lemma {:induction false} CountRestrict(response: string, columns: seq<string>, rows: seq<Row>)
    requires response in columns
    ensures Count(FailedRow(response), Map(row => Restrict(row, columns), rows)) == Count(FailedRow(response), rows)
  {
    if |rows| > 0 {
      var restricted := Map(row => Restrict(row, columns), rows);
      assert restricted[1..] == Map(row => Restrict(row, columns), rows[1..]);
      CountRestrict(response, columns, rows[1..]);
    }
  }

  /** What the builtin `sum` raises on a DataFrame: it adds the column labels,
      which are strings, to its start value 0. */
  const SumOfLabelsMessage: string := "unsupported operand type(s) for +: 'int' and 'str'"

  /** Dropping labels that do not include `x` keeps every occurrence of `x`. */
  lemma {:induction false} DropKeepsOccurrences(columns: seq<string>, labels: set<string>, x: string)
    requires x !in labels
    ensures multiset(Drop(columns, labels))[x] == multiset(columns)[x]
  {
    if |columns| > 0 {
      assert columns == [columns[0]] + columns[1..];
      DropKeepsOccurrences(columns[1..], labels, x);
    }
  }

  /** With distinct output names, the response label occurs in the output
      columns once more than in the input columns: the input's own columns of
      that name are kept alongside the generated one. */
  lemma ResponseOccurrences(input: seq<string>, names: OutputColumns, verbose: bool, mode: ErrorHandling)
    requires names.Distinct()
    ensures multiset(FinalColumns(input, names, verbose, mode))[names.response] == multiset(input)[names.response] + 1
  {
    var all := input + names.Fields();
    assert multiset(all)[names.response] == multiset(input)[names.response] + 1;
    var kept := if verbose then all else Drop(all, {names.errorRaw});
    DropKeepsOccurrences(all, {names.errorRaw}, names.response);
    if mode == Fail {
      DropKeepsOccurrences(kept, names.ErrorFields(), names.response);
    }
  }

  /** The output frame and the counts `run` logs. Looking up a response column
      the drop rules removed raises `KeyError`; a response label that occurs
      more than once selects a DataFrame, whose `sum` raises `TypeError`. */
  function Assemble(p: Parallelizer, table: Table, names: OutputColumns, results: seq<Row>): (r: Outcome<Report>)
    ensures var cols := FinalColumns(table.columns, names, p.verbose, p.errorHandling);
      && (r.Ok? <==> multiset(cols)[names.response] == 1)
      && (names.response !in cols ==> r == Raise(KeyError(names.response)))
      && (multiset(cols)[names.response] > 1 ==> r == Raise(TypeError(SumOfLabelsMessage)))
    ensures r.Ok? ==>
      var cols := FinalColumns(table.columns, names, p.verbose, p.errorHandling);
      var records := r.value.frame.records;
      && r.value.frame.columns == cols
      && |records| == |results|
      && (forall i, c :: 0 <= i < |results| ==> (c in records[i] <==> c in results[i] && c in cols))
      && (forall i, c :: 0 <= i < |results| && c in records[i] && c in results[i] ==> records[i][c] == results[i][c])
      && r.value.numError == Count(FailedRow(names.response), results)
      && r.value.numError <= |results|
      && r.value.numSuccess == |table.rows| - r.value.numError
  {
    var cols := FinalColumns(table.columns, names, p.verbose, p.errorHandling);
    if names.response !in cols then Raise(KeyError(names.response))
    else if multiset(cols)[names.response] > 1 then Raise(TypeError(SumOfLabelsMessage))
    else
      var records := Map(row => Restrict(row, cols), results);
      var numError := Count(FailedRow(names.response), records);
      CountRestrict(names.response, cols, results);
      Ok(Report(Frame(cols, records), |table.rows| - numError, numError))
  }

  /** With distinct output names, assembly succeeds exactly when the response
      name is not an input column. */
  lemma AssembleNeedsFreshResponse(p: Parallelizer, table: Table, names: OutputColumns, results: seq<Row>)
    requires names.Distinct()
    ensures Assemble(p, table, names, results).Ok? <==> names.response !in table.columns
    ensures names.response in table.columns ==> Assemble(p, table, names, results) == Raise(TypeError(SumOfLabelsMessage))
  {
    ResponseOccurrences(table.columns, names, p.verbose, p.errorHandling);
  }
}

=== FILE: chunking.dfy ===
/** The unit builder's batching: `more_itertools.chunked` over the rows. */
module Chunking {
  import opened Sequences

  /** `math.ceil(n / size)` for a positive `size`, by repeated subtraction. */
  function CeilDiv(n: nat, size: nat): nat
    requires size > 0
    decreases n
  {
    if n == 0 then 0 else if n <= size then 1 else 1 + CeilDiv(n - size, size)
  }

  /** `CeilDiv` is the ceiling of `n / size`: the least `q` with `q * size >= n`. */
  lemma {:induction false} CeilDivIsCeiling(n: nat, size: nat)
    requires size > 0
    ensures CeilDiv(n, size) * size >= n
    ensures CeilDiv(n, size) > 0 ==> (CeilDiv(n, size) - 1) * size < n
    decreases n
  {
    if n > size {
      CeilDivIsCeiling(n - size, size);
      var q := CeilDiv(n - size, size);
      assert (q + 1) * size == q * size + size;
      assert q * size - size == (q - 1) * size;
    }
  }

  function Min(a: int, b: int): int {
    if a <= b then a else b
  }

  /** Consecutive chunks of at most `size` elements, in input order. */
  function Chunks<T>(xs: seq<T>, size: nat): (chunks: seq<seq<T>>)
    requires size > 0
    ensures |chunks| == CeilDiv(|xs|, size)
    ensures forall i :: 0 <= i < |chunks| ==> 0 < |chunks[i]| <= size
    ensures forall i :: 0 <= i < |chunks| - 1 ==> |chunks[i]| == size
    decreases |xs|
  {
    if |xs| == 0 then []
    else if |xs| <= size then [xs]
    else
      [xs[..size]] + Chunks(xs[size..], size)
  }

  /** Chunk `i` holds the elements from `i * size` up to the next multiple of
      `size` or the end of the input. */
  lemma {:induction false} ChunkContents<T>(xs: seq<T>, size: nat, i: nat)
    requires size > 0
    requires i < |Chunks(xs, size)|
    ensures i * size < |xs|
    ensures Chunks(xs, size)[i] == xs[i * size .. Min((i + 1) * size, |xs|)]
    decreases |xs|
  {
    if |xs| <= size {
      assert i == 0;
    } else if i > 0 {
      ChunkContents(xs[size..], size, i - 1);
      assert (i - 1) * size + size == i * size;
      assert i * size + size == (i + 1) * size;
    }
  }

  /** Flattening the chunks gives back the input. */
  lemma {:induction false} FlattenChunks<T>(xs: seq<T>, size: nat)
    requires size > 0
    ensures Flatten(Chunks(xs, size)) == xs
    decreases |xs|
  {
    if |xs| == 0 {
    } else if |xs| <= size {
      assert Flatten([xs]) == xs + Flatten([xs][1..]);
      assert [xs][1..] == [];
    } else {
      FlattenChunks(xs[size..], size);
      var chunks := Chunks(xs, size);
      assert chunks[1..] == Chunks(xs[size..], size);
      assert xs == xs[..size] + xs[size..];
    }
  }
}

=== FILE: engine.dfy ===
/** `DataFrameParallelizer.run`: build the units, invoke the wrapper on each,
    collect the results in completion order, flatten and assemble them. The
    thread pool is replaced by a sequential map; the order in which the pool
    completes the units is the parameter `order`, any permutation of them. */
module Engine {
  import opened Values
  import opened Errors
  import opened Setup
  import opened Sequences
  import opened Chunking
  import opened Invocation
  import opened Kwargs
  import opened Assembly

  const NoWorkersMessage: string := "max_workers must be greater than 0"
  const DivisionByZeroMessage: string := "division by zero"

  /** `len_generator`: the number of units `run` expects. */
  function UnitCount(p: Parallelizer, n: nat): nat {
    if !p.batchSupport then n
    else if p.batchSize <= 0 then 0
    else CeilDiv(n, p.batchSize)
  }

  /** The rows the units carry, in unit order. */
  function FlatRows(units: seq<Unit>): seq<Row> {
    Flatten(Map((u: Unit) => u.Rows(), units))
  }

  lemma {:induction false} FlatRowUnits(rows: seq<Row>)
    ensures FlatRows(Map((r: Row) => RowUnit(r), rows)) == rows
  {
    if |rows| > 0 {
      var units := Map((r: Row) => RowUnit(r), rows);
      assert Map((u: Unit) => u.Rows(), units)[1..] == Map((u: Unit) => u.Rows(), units[1..]);
      assert units[1..] == Map((r: Row) => RowUnit(r), rows[1..]);
      FlatRowUnits(rows[1..]);
    }
  }

  /** The unit builder: one row unit per row, or one batch unit per chunk of
      at most `batchSize` consecutive rows. */
  function Units(p: Parallelizer, rows: seq<Row>): (units: seq<Unit>)
    requires p.batchSupport ==> p.batchSize > 0
    ensures |units| == UnitCount(p, |rows|)
    ensures FlatRows(units) == rows
    ensures !p.batchSupport ==> forall i :: 0 <= i < |units| ==> units[i] == RowUnit(rows[i])
    ensures p.batchSupport ==> forall i :: 0 <= i < |units| ==>
      units[i].BatchUnit? && 0 < |units[i].rows| <= p.batchSize &&
      (i < |units| - 1 ==> |units[i].rows| == p.batchSize)
  {
    if p.batchSupport then
      var chunks := Chunks(rows, p.batchSize);
      var units := Map((c: seq<Row>) => BatchUnit(c), chunks);
      assert Map((u: Unit) => u.Rows(), units) == chunks;
      FlattenChunks(rows, p.batchSize);
      units
    else
      FlatRowUnits(rows);
      Map((r: Row) => RowUnit(r), rows)
  }

  /** One submitted call: `row=` for a row unit, `batch=` for a batch unit. */
  function Dispatch(p: Parallelizer, py: Reflection, names: OutputColumns, kwargs: map<string, Value>, u: Unit): Outcome<Unit> {
    match u
    case RowUnit(row) => Wrap(p, py, names, Some(row), None, kwargs)
    case BatchUnit(rows) => Wrap(p, py, names, None, Some(rows), kwargs)
  }

  /** `results.append(future.result())` over the futures in completion order:
      the first raised exception in that order aborts the collection. */
  function Collect(outcomes: seq<Outcome<Unit>>, order: seq<nat>): (r: Outcome<seq<Unit>>)
    requires InBounds(order, |outcomes|)
    ensures r.Ok? <==> forall k :: 0 <= k < |order| ==> outcomes[order[k]].Ok?
    ensures r.Ok? ==> |r.value| == |order| && forall k :: 0 <= k < |order| ==> r.value[k] == outcomes[order[k]].value
    ensures r.Raise? ==>
      exists k :: 0 <= k < |order| && outcomes[order[k]] == Raise(r.exc) && forall j :: 0 <= j < k ==> outcomes[order[j]].Ok?
  {
    if |order| == 0 then Ok([])
    else
      match outcomes[order[0]]
      case Raise(e) => Raise(e)
      case Ok(u) =>
        match Collect(outcomes, order[1..])
        case Raise(e) =>
          assert forall j :: 1 <= j < |order| ==> order[j] == order[1..][j - 1];
          Raise(e)
        case Ok(us) => Ok([u] + us)
  }

  /** The configuration lets `run` reach the pool: a batch size that can
      divide, and a positive worker count. */
  predicate Runnable(p: Parallelizer) {
    (!p.batchSupport || p.batchSize > 0) && p.parallelWorkers > 0
  }

  /** The output column names `run` generates for `table`. */
  function NamesFor(p: Parallelizer, generate: GenerateUnique, table: Table): OutputColumns {
    OutputColumnNames(table.columns, p.outputColumnPrefix, generate)
  }

  /** The keyword arguments the user function receives. */
  function KwargsFor(p: Parallelizer, names: OutputColumns, kwargs: map<string, Value>): map<string, Value> {
    FunctionKwargs(PoolKwargs(names, kwargs, p.batchSupport))
  }

  /** The wrapper's outcome on each unit, in submission order. */
  function Outcomes(p: Parallelizer, py: Reflection, names: OutputColumns, kwargs: map<string, Value>, rows: seq<Row>): (outs: seq<Outcome<Unit>>)
    requires p.batchSupport ==> p.batchSize > 0
    ensures |outs| == UnitCount(p, |rows|)
  {
    Map((u: Unit) => Dispatch(p, py, names, kwargs, u), Units(p, rows))
  }

  predicate AllOk(outs: seq<Outcome<Unit>>) {
    forall i :: 0 <= i < |outs| ==> outs[i].Ok?
  }

  function Returned(outs: seq<Outcome<Unit>>): (us: seq<Unit>)
    requires AllOk(outs)
    ensures |us| == |outs|
  {
    seq(|outs|, i requires 0 <= i < |outs| => outs[i].value)
  }

  /** The rows of the output frame, in submission order. */
  function RecordsInUnitOrder(p: Parallelizer, table: Table, names: OutputColumns, outs: seq<Outcome<Unit>>): seq<Row>
    requires AllOk(outs)
  {
    var cols := FinalColumns(table.columns, names, p.verbose, p.errorHandling);
    Map((row: Row) => Restrict(row, cols), FlatRows(Returned(outs)))
  }

  /** The tail of `run` once every unit is submitted: collect in completion
      order, flatten, assemble. */
  function Gather(p: Parallelizer, table: Table, names: OutputColumns, outs: seq<Outcome<Unit>>, order: seq<nat>): (r: Outcome<Report>)
    requires IsPermutation(order, |outs|)
    ensures var cols := FinalColumns(table.columns, names, p.verbose, p.errorHandling);
      && (r.Ok? <==> AllOk(outs) && multiset(cols)[names.response] == 1)
      && (r.Raise? && AllOk(outs) ==>
            r.exc == if names.response !in cols then KeyError(names.response) else TypeError(SumOfLabelsMessage))
    ensures r.Raise? && !AllOk(outs) ==> exists i :: 0 <= i < |outs| && outs[i] == Raise(r.exc)
    ensures r.Ok? ==>
      && r.value.frame.columns == FinalColumns(table.columns, names, p.verbose, p.errorHandling)
      && multiset(r.value.frame.records) == multiset(RecordsInUnitOrder(p, table, names, outs))
      && r.value.numError == Count(FailedRow(names.response), r.value.frame.records)
      && r.value.numError + r.value.numSuccess == |table.rows|
  {
    PermutationInBounds(order, |outs|);
    match Collect(outs, order)
    case Raise(e) => Raise(e)
    case Ok(results) =>
      assert AllOk(outs) by {
        forall i | 0 <= i < |outs|
          ensures outs[i].Ok?
        {
          assert Range(|outs|)[i] == i;
          assert i in multiset(Range(|outs|));
          assert i in multiset(order);
          var k :| 0 <= k < |order| && order[k] == i;
        }
      }
      var report := Assemble(p, table, names, FlatRows(results));
      if report.Ok? then
        CompletionOrderMultiset(p, table, names, outs, order, results);
        CountRestrict(names.response, report.value.frame.columns, FlatRows(results));
        report
      else report
  }

  /** `run`: the batch count, the pool, the wrapper on every unit, and the
      assembly of what the units returned, in completion order. */
  function Run(p: Parallelizer, py: Reflection, generate: GenerateUnique, table: Table,
               kwargs: map<string, Value>, order: seq<nat>): (r: Outcome<Report>)
    requires NamesKey !in kwargs
    requires p.batchSupport ==> p.batchSize >= 0
    requires IsPermutation(order, UnitCount(p, |table.rows|))
    ensures p.batchSupport && p.batchSize == 0 ==> r == Raise(ZeroDivisionError(DivisionByZeroMessage))
    ensures (!p.batchSupport || p.batchSize > 0) && p.parallelWorkers <= 0 ==> r == Raise(ValueError(NoWorkersMessage))
    ensures !Runnable(p) ==> r.Raise?
    ensures Runnable(p) ==>
      var names := NamesFor(p, generate, table);
      var outs := Outcomes(p, py, names, KwargsFor(p, names, kwargs), table.rows);
      var cols := FinalColumns(table.columns, names, p.verbose, p.errorHandling);
      && (r.Ok? <==> AllOk(outs) && multiset(cols)[names.response] == 1)
      && (r.Raise? && AllOk(outs) ==>
            r.exc == if names.response !in cols then KeyError(names.response) else TypeError(SumOfLabelsMessage))
      && (r.Raise? && !AllOk(outs) ==> exists i :: 0 <= i < |outs| && outs[i] == Raise(r.exc))
      && (r.Ok? ==>
            && r.value.frame.columns == cols
            && multiset(r.value.frame.records) == multiset(RecordsInUnitOrder(p, table, names, outs))
            && r.value.numError == Count(FailedRow(names.response), r.value.frame.records)
            && r.value.numError + r.value.numSuccess == |table.rows|)
  {
    if p.batchSupport && p.batchSize == 0 then Raise(ZeroDivisionError(DivisionByZeroMessage))
    else
      var names := NamesFor(p, generate, table);
      var forwarded := KwargsFor(p, names, kwargs);
      if p.parallelWorkers <= 0 then Raise(ValueError(NoWorkersMessage))
      else Gather(p, table, names, Outcomes(p, py, names, forwarded, table.rows), order)
  }

  /** The completion order changes only the order of the records. */
  lemma CompletionOrderMultiset(p: Parallelizer, table: Table, names: OutputColumns,
                                outs: seq<Outcome<Unit>>, order: seq<nat>, results: seq<Unit>)
    requires AllOk(outs)
    requires IsPermutation(order, |outs|)
    requires InBounds(order, |outs|)
    requires |results| == |order|
    requires forall k :: 0 <= k < |order| ==> results[k] == outs[order[k]].value
    ensures var cols := FinalColumns(table.columns, names, p.verbose, p.errorHandling);
      multiset(Map((row: Row) => Restrict(row, cols), FlatRows(results))) == multiset(RecordsInUnitOrder(p, table, names, outs))
  {
    var cols := FinalColumns(table.columns, names, p.verbose, p.errorHandling);
    var values := Returned(outs);
    PermutationInBounds(order, |outs|);
    assert results == Apply(values, order);
    assert Apply(values, Range(|values|)) == values;
    ApplyMultiset(values, order, Range(|values|));
    MapMultiset((u: Unit) => u.Rows(), results, values);
    FlattenMultiset(Map((u: Unit) => u.Rows(), results), Map((u: Unit) => u.Rows(), values));
    MapMultiset((row: Row) => Restrict(row, cols), FlatRows(results), FlatRows(values));
  }

  /** A unit's result has as many rows as the unit, when the parser keeps
      the length of the batch it parses. */
  lemma DispatchKeepsLength(p: Parallelizer, py: Reflection, names: OutputColumns, kwargs: map<string, Value>, u: Unit)
    requires Dispatch(p, py, names, kwargs, u).Ok?
    requires u.BatchUnit? ==> p.batchResponseParser.Some? && PreservesLength(p.batchResponseParser.value)
    ensures |Dispatch(p, py, names, kwargs, u).value.Rows()| == |u.Rows()|
  {
  }

  /** The completion order decides nothing but the order of the output
      records: whether collection returns, the columns, the multiset of
      records and both counts are the same for every order. */
  lemma GatherOrderIrrelevant(p: Parallelizer, table: Table, names: OutputColumns,
                              outs: seq<Outcome<Unit>>, order1: seq<nat>, order2: seq<nat>)
    requires IsPermutation(order1, |outs|)
    requires IsPermutation(order2, |outs|)
    ensures Gather(p, table, names, outs, order1).Ok? <==> Gather(p, table, names, outs, order2).Ok?
    ensures Gather(p, table, names, outs, order1).Ok? ==>
      var a := Gather(p, table, names, outs, order1).value;
      var b := Gather(p, table, names, outs, order2).value;
      && a.frame.columns == b.frame.columns
      && multiset(a.frame.records) == multiset(b.frame.records)
      && a.numError == b.numError
      && a.numSuccess == b.numSuccess
  {
    var a := Gather(p, table, names, outs, order1);
    var b := Gather(p, table, names, outs, order2);
    if a.Ok? {
      CountMultiset(FailedRow(names.response), a.value.frame.records, b.value.frame.records);
    }
  }

  /** `run` for two completion orders: the same verdict, columns, multiset
      of records and counts. */
  lemma RunOrderIrrelevant(p: Parallelizer, py: Reflection, generate: GenerateUnique, table: Table,
                           kwargs: map<string, Value>, order1: seq<nat>, order2: seq<nat>)
    requires NamesKey !in kwargs
    requires Runnable(p)
    requires IsPermutation(order1, UnitCount(p, |table.rows|))
    requires IsPermutation(order2, UnitCount(p, |table.rows|))
    ensures Run(p, py, generate, table, kwargs, order1).Ok? <==> Run(p, py, generate, table, kwargs, order2).Ok?
    ensures Run(p, py, generate, table, kwargs, order1).Ok? ==>
      var a := Run(p, py, generate, table, kwargs, order1).value;
      var b := Run(p, py, generate, table, kwargs, order2).value;
      && a.frame.columns == b.frame.columns
      && multiset(a.frame.records) == multiset(b.frame.records)
      && a.numError == b.numError
      && a.numSuccess == b.numSuccess
  {
    var names := NamesFor(p, generate, table);
    GatherOrderIrrelevant(p, table, names, Outcomes(p, py, names, KwargsFor(p, names, kwargs), table.rows), order1, order2);
  }

  /** When every unit returns and the parser returns one row per batch row,
      the units' results hold exactly one row per input row. */
  lemma OutcomesKeepRowCount(p: Parallelizer, py: Reflection, names: OutputColumns,
                             kwargs: map<string, Value>, rows: seq<Row>)
    requires p.batchSupport ==> p.batchSize > 0
    requires p.batchSupport ==> p.batchResponseParser.Some? && PreservesLength(p.batchResponseParser.value)
    ensures var outs := Outcomes(p, py, names, kwargs, rows);
      AllOk(outs) ==> |FlatRows(Returned(outs))| == |rows|
  {
    var units := Units(p, rows);
    var outs := Outcomes(p, py, names, kwargs, rows);
    if AllOk(outs) {
      var results := Returned(outs);
      forall i | 0 <= i < |units|
        ensures |results[i].Rows()| == |units[i].Rows()|
      {
        assert outs[i] == Dispatch(p, py, names, kwargs, units[i]);
        assert units[i].BatchUnit? ==> p.batchSupport;
        DispatchKeepsLength(p, py, names, kwargs, units[i]);
      }
      FlattenSameShape(Map((u: Unit) => u.Rows(), results), Map((u: Unit) => u.Rows(), units));
    }
  }

  /** Batch-mode flattening neither drops nor duplicates rows: whenever `run`
      returns, the output has one record per input row, provided the parser
      returns one row per batch row. */
  lemma RunKeepsRowCount(p: Parallelizer, py: Reflection, generate: GenerateUnique, table: Table,
                         kwargs: map<string, Value>, order: seq<nat>)
    requires NamesKey !in kwargs
    requires Runnable(p)
    requires p.batchSupport ==> p.batchResponseParser.Some? && PreservesLength(p.batchResponseParser.value)
    requires IsPermutation(order, UnitCount(p, |table.rows|))
    ensures Run(p, py, generate, table, kwargs, order).Ok? ==>
      |Run(p, py, generate, table, kwargs, order).value.frame.records| == |table.rows|
  {
    var r := Run(p, py, generate, table, kwargs, order);
    if r.Ok? {
      var names := NamesFor(p, generate, table);
      var kw := KwargsFor(p, names, kwargs);
      var outs := Outcomes(p, py, names, kw, table.rows);
      assert r == Gather(p, table, names, outs, order);
      OutcomesKeepRowCount(p, py, names, kw, table.rows);
      assert |r.value.frame.records| == |multiset(r.value.frame.records)| == |multiset(RecordsInUnitOrder(p, table, names, outs))|;
    }
  }

  /** Whether the user function raised, or returned the empty string, on `row`:
      exactly the rows `run` counts as failed in Log mode. */
  predicate CountedAsFailed(p: Parallelizer, kwargs: map<string, Value>, row: Row) {
    var outcome := p.fn(RowUnit(row), kwargs);
    outcome.Raise? || outcome.value == Empty
  }

  /** Every exception the user function raises on `rows` is in the catch set. */
  predicate OnlyCaughtErrors(p: Parallelizer, kwargs: map<string, Value>, rows: seq<Row>) {
    forall i :: 0 <= i < |rows| ==>
      var outcome := p.fn(RowUnit(rows[i]), kwargs);
      outcome.Raise? ==> Caught(outcome.exc, p.exceptionsToCatch)
  }

  /** Error isolation in Log mode, row by row: when every exception the user
      function raises is caught, every unit returns, there is one result row
      per input row, and the rows with an empty response are exactly those on
      which the function raised or returned the empty string. */
  lemma OutcomesIsolateErrors(p: Parallelizer, py: Reflection, names: OutputColumns,
                              kwargs: map<string, Value>, rows: seq<Row>)
    requires p.errorHandling == Log && !p.batchSupport
    requires forall i :: 0 <= i < |rows| ==> rows[i] != map[]
    requires names.Distinct()
    requires OnlyCaughtErrors(p, kwargs, rows)
    ensures AllOk(Outcomes(p, py, names, kwargs, rows))
    ensures var flat := FlatRows(Returned(Outcomes(p, py, names, kwargs, rows)));
      && |flat| == |rows|
      && Count(FailedRow(names.response), flat) == Count((row: Row) => CountedAsFailed(p, kwargs, row), rows)
  {
    var units := Units(p, rows);
    var outs := Outcomes(p, py, names, kwargs, rows);
    forall i | 0 <= i < |outs|
      ensures outs[i].Ok? && outs[i].value.RowUnit?
      ensures FailedRow(names.response)(outs[i].value.row) == CountedAsFailed(p, kwargs, rows[i])
    {
      assert units[i] == RowUnit(rows[i]);
      assert outs[i] == WrapRow(p, py, names, rows[i], kwargs);
    }
    var results := Returned(outs);
    var outRows := Map((u: Unit) => if u.RowUnit? then u.row else map[], results);
    assert results == Map((row: Row) => RowUnit(row), outRows);
    FlatRowUnits(outRows);
    CountPointwise(FailedRow(names.response), (row: Row) => CountedAsFailed(p, kwargs, row), outRows, rows);
  }

  /** Error isolation for a whole Log-mode run in row mode: `run` returns one
      record per row, and the failure count is the number of rows on which the
      function raised or returned the empty string. */
  lemma LogModeIsolatesErrors(p: Parallelizer, py: Reflection, generate: GenerateUnique, table: Table,
                              kwargs: map<string, Value>, order: seq<nat>)
    requires NamesKey !in kwargs
    requires p.errorHandling == Log && !p.batchSupport && p.parallelWorkers > 0
    requires IsPermutation(order, |table.rows|)
    requires forall i :: 0 <= i < |table.rows| ==> table.rows[i] != map[]
    requires FreshNames(table.columns, NamesFor(p, generate, table))
    requires OnlyCaughtErrors(p, KwargsFor(p, NamesFor(p, generate, table), kwargs), table.rows)
    ensures Run(p, py, generate, table, kwargs, order).Ok?
    ensures var report := Run(p, py, generate, table, kwargs, order).value;
      && |report.frame.records| == |table.rows|
      && report.numError == Count((row: Row) => CountedAsFailed(p, KwargsFor(p, NamesFor(p, generate, table), kwargs), row), table.rows)
      && report.numSuccess == |table.rows| - report.numError
  {
    var names := NamesFor(p, generate, table);
    var kw := KwargsFor(p, names, kwargs);
    var outs := Outcomes(p, py, names, kw, table.rows);
    var cols := FinalColumns(table.columns, names, p.verbose, p.errorHandling);
    OutcomesIsolateErrors(p, py, names, kw, table.rows);
    ResponseOccurrences(table.columns, names, p.verbose, p.errorHandling);
    assert names.response in cols by {
      assert KeptColumn(names.response, table.columns, names, p.verbose, p.errorHandling);
    }
    var r := Run(p, py, generate, table, kwargs, order);
    var inOrder := RecordsInUnitOrder(p, table, names, outs);
    assert |r.value.frame.records| == |multiset(r.value.frame.records)| == |multiset(inOrder)|;
    CountMultiset(FailedRow(names.response), r.value.frame.records, inOrder);
    CountRestrict(names.response, cols, FlatRows(Returned(outs)));
  }

  /** The user function raised `e` on one of `rows`. */
  predicate RaisedOnSomeRow(p: Parallelizer, kwargs: map<string, Value>, rows: seq<Row>, e: Exc) {
    exists j :: 0 <= j < |rows| && p.fn(RowUnit(rows[j]), kwargs) == Raise(e)
  }

  /** In row mode with non-empty rows, a unit raises exactly when the user
      function raised an exception the wrapper does not recover from, and it
      raises that same exception. */
  lemma OutcomesPropagate(p: Parallelizer, py: Reflection, names: OutputColumns,
                          kwargs: map<string, Value>, rows: seq<Row>, i: nat)
    requires !p.batchSupport
    requires forall j :: 0 <= j < |rows| ==> rows[j] != map[]
    requires i < |rows|
    ensures var outs := Outcomes(p, py, names, kwargs, rows);
      var outcome := p.fn(RowUnit(rows[i]), kwargs);
      && (outs[i].Raise? <==> outcome.Raise? && !Recovers(p, outcome.exc))
      && (outs[i].Raise? ==> outs[i].exc == outcome.exc)
  {
    assert Units(p, rows)[i] == RowUnit(rows[i]);
  }

  /** An exception the wrapper does not recover from (Fail mode, or a class
      outside the catch set) aborts `run`: the caller sees an exception the
      user function raised on some row, and no output. */
  lemma UnrecoveredErrorAborts(p: Parallelizer, py: Reflection, generate: GenerateUnique, table: Table,
                               kwargs: map<string, Value>, order: seq<nat>, i: nat)
    requires NamesKey !in kwargs
    requires !p.batchSupport && p.parallelWorkers > 0
    requires IsPermutation(order, |table.rows|)
    requires forall j :: 0 <= j < |table.rows| ==> table.rows[j] != map[]
    requires i < |table.rows|
    requires var outcome := p.fn(RowUnit(table.rows[i]), KwargsFor(p, NamesFor(p, generate, table), kwargs));
      outcome.Raise? && !Recovers(p, outcome.exc)
    ensures Run(p, py, generate, table, kwargs, order).Raise?
    ensures RaisedOnSomeRow(p, KwargsFor(p, NamesFor(p, generate, table), kwargs), table.rows,
                            Run(p, py, generate, table, kwargs, order).exc)
  {
    var names := NamesFor(p, generate, table);
    var kw := KwargsFor(p, names, kwargs);
    var outs := Outcomes(p, py, names, kw, table.rows);
    OutcomesPropagate(p, py, names, kw, table.rows, i);
    var r := Run(p, py, generate, table, kwargs, order);
    var j :| 0 <= j < |outs| && outs[j] == Raise(r.exc);
    OutcomesPropagate(p, py, names, kw, table.rows, j);
  }
}

=== FILE: errors.dfy ===
/** Python exceptions, reduced to what the error-isolation boundary inspects. */
module Errors {
  import opened Values

  /** An exception class. `BatchErrorKind` is the module's own `BatchError`. */
  datatype Kind = BatchErrorKind | Named(name: string)

  const BaseExceptionKind: Kind := Named("BaseException")
  const ExceptionKind: Kind := Named("Exception")
  const ValueErrorKind: Kind := Named("ValueError")
  const TypeErrorKind: Kind := Named("TypeError")
  const KeyErrorKind: Kind := Named("KeyError")
  const ZeroDivisionErrorKind: Kind := Named("ZeroDivisionError")

  /** A raised exception: its class, every class it inherits from, and `args`. */
  datatype Exc = Exc(kind: Kind, bases: set<Kind>, args: seq<Value>)

  /** `isinstance(e, k)`. */
  predicate IsInstance(e: Exc, k: Kind) {
    k == e.kind || k in e.bases
  }

  /** Whether `except catch + (BatchError,)` catches `e`. */
  predicate Caught(e: Exc, catch: set<Kind>) {
    ({e.kind} + e.bases) * (catch + {BatchErrorKind}) != {}
  }

  /** The result of a Python call: a returned value or a raised exception. */
  datatype Outcome<+T> = Ok(value: T) | Raise(exc: Exc)

  function ValueError(message: string): Exc {
    Exc(ValueErrorKind, {ExceptionKind, BaseExceptionKind}, [Text(message)])
  }

  function TypeError(message: string): Exc {
    Exc(TypeErrorKind, {ExceptionKind, BaseExceptionKind}, [Text(message)])
  }

  function KeyError(key: string): Exc {
    Exc(KeyErrorKind, {Named("LookupError"), ExceptionKind, BaseExceptionKind}, [Text(key)])
  }

  function ZeroDivisionError(message: string): Exc {
    Exc(ZeroDivisionErrorKind, {Named("ArithmeticError"), ExceptionKind, BaseExceptionKind}, [Text(message)])
  }

  /** `BatchError(message)`; `BatchError` subclasses `ValueError`. */
  function BatchError(message: string): Exc {
    Exc(BatchErrorKind, {ValueErrorKind, ExceptionKind, BaseExceptionKind}, [Text(message)])
  }

  /** Python's string conversions and reflection, which the model does not
      reproduce: `str(error)`, the module-qualified class name of `error`,
      `str(error.args)`, and `str(values)` of a list. */
  datatype Reflection = Reflection(
    message: Exc -> string,
    typeName: Exc -> string,
    rawArgs: Exc -> string,
    listText: seq<Value> -> string)
}

=== FILE: invocation.dfy ===
/** The per-unit invocation wrapper (`_apply_function_and_parse_response`):
    the error-isolation boundary around one call of the user function. */
module Invocation {
  import opened Values
  import opened Errors
  import opened Setup
  import opened Sequences

  const BothGivenMessage: string := "Please use either row or batch as arguments, but not both"
  const NoneNotIterableMessage: string := "'NoneType' object is not iterable"
  const NoneNotCallableMessage: string := "'NoneType' object is not callable"

  /** `if row:` on an optional dict. */
  predicate RowGiven(row: Option<Row>) {
    row.Some? && row.value != map[]
  }

  /** `if batch:` on an optional list. */
  predicate BatchGiven(batch: Option<seq<Row>>) {
    batch.Some? && batch.value != []
  }

  /** Keys of `row` other than the output columns are present in `out` with
      their original values. */
  predicate Untouched(out: Row, row: Row, names: OutputColumns) {
    forall c :: c in row && c !in names.NameSet() ==> c in out && out[c] == row[c]
  }

  /** A row on which the user function returned `response`. */
  predicate Succeeded(out: Row, names: OutputColumns, response: Value) {
    && names.NameSet() <= out.Keys
    && out[names.response] == response
    && out[names.errorMessage] == Empty
    && out[names.errorType] == Empty
    && out[names.errorRaw] == Empty
  }

  /** A row whose unit raised `e` and was recovered: empty response, and the
      three error columns describing `e`. */
  predicate Failed(out: Row, names: OutputColumns, py: Reflection, e: Exc) {
    && names.NameSet() <= out.Keys
    && out[names.response] == Empty
    && out[names.errorMessage] == Text(py.message(e))
    && out[names.errorType] == Text(py.typeName(e))
    && out[names.errorRaw] == Text(py.rawArgs(e))
  }

  /** The error columns of `out` describe `e`. */
  predicate Describes(out: Row, names: OutputColumns, py: Reflection, e: Exc) {
    && names.ErrorFields() <= out.Keys
    && out[names.errorMessage] == Text(py.message(e))
    && out[names.errorType] == Text(py.typeName(e))
    && out[names.errorRaw] == Text(py.rawArgs(e))
  }

  /** The outcome when `e` is raised after the parser returned `parsed`: it
      propagates, or every parsed row keeps its cells outside the error
      columns (the response among them) and gets error columns describing `e`. */
  predicate RecoveredParsed(r: Outcome<Unit>, p: Parallelizer, py: Reflection, names: OutputColumns, e: Exc, parsed: seq<Row>) {
    && (r.Ok? <==> Recovers(p, e))
    && (r.Raise? ==> r.exc == e)
    && (r.Ok? ==>
          && r.value.BatchUnit?
          && |r.value.rows| == |parsed|
          && forall i :: 0 <= i < |parsed| ==>
               && r.value.rows[i].Keys == parsed[i].Keys + names.ErrorFields()
               && (forall c :: c in parsed[i] && c !in names.ErrorFields() ==> r.value.rows[i][c] == parsed[i][c])
               && (names.Distinct() ==> Describes(r.value.rows[i], names, py, e)))
  }

  /** The outcome when `e` is raised while `output` still holds the copied
      batch: it propagates, or every row of the copy records it. */
  predicate RecoveredCopy(r: Outcome<Unit>, p: Parallelizer, py: Reflection, names: OutputColumns, e: Exc, batch: seq<Row>) {
    && (r.Ok? <==> Recovers(p, e))
    && (r.Raise? ==> r.exc == e)
    && (r.Ok? ==>
          && r.value.BatchUnit?
          && |r.value.rows| == |batch|
          && forall i :: 0 <= i < |batch| ==>
               && r.value.rows[i].Keys == batch[i].Keys + names.NameSet()
               && Untouched(r.value.rows[i], batch[i], names)
               && (names.Distinct() ==> Failed(r.value.rows[i], names, py, e)))
  }

  /** A copy of `row` with every output column set to the empty sentinel. */
  function Initialise(row: Row, names: OutputColumns): (r: Row)
    ensures r.Keys == row.Keys + names.NameSet()
    ensures forall c :: c in names.NameSet() ==> r[c] == Empty
    ensures Untouched(r, row, names)
  {
    row[names.response := Empty][names.errorMessage := Empty][names.errorType := Empty][names.errorRaw := Empty]
  }

  /** `row` with the error columns describing `e`; when two error column
      names coincide, the later assignment wins. */
  function Annotate(row: Row, names: OutputColumns, py: Reflection, e: Exc): (r: Row)
    ensures r.Keys == row.Keys + names.ErrorFields()
    ensures names.Distinct() ==> Describes(r, names, py, e)
    ensures forall c :: c in row && c !in names.ErrorFields() ==> r[c] == row[c]
  {
    row[names.errorMessage := Text(py.message(e))][names.errorType := Text(py.typeName(e))][names.errorRaw := Text(py.rawArgs(e))]
  }

  /** Whether the `except` clause swallows `e` instead of propagating it. */
  predicate Recovers(p: Parallelizer, e: Exc) {
    Caught(e, p.exceptionsToCatch) && p.errorHandling == Log
  }

  /** The `except` clause, applied to the rows `output` holds when `e` is raised. */
  function Recover(p: Parallelizer, py: Reflection, names: OutputColumns, e: Exc, rows: seq<Row>): (r: Outcome<Unit>)
    ensures r.Ok? <==> Recovers(p, e)
    ensures r.Raise? ==> r.exc == e
    ensures r.Ok? ==> r.value == BatchUnit(Map(row => Annotate(row, names, py, e), rows))
  {
    if Recovers(p, e) then Ok(BatchUnit(Map(row => Annotate(row, names, py, e), rows))) else Raise(e)
  }

  /** A row whose column `key` holds a truthy value. */
  function HasMessage(key: string): Row -> bool {
    row => key in row && Truthy(row[key])
  }

  /** The truthy values of column `key`, in row order; a row without `key`
      raises `KeyError`. */
  function ErrorMessages(rows: seq<Row>, key: string): (r: Outcome<seq<Value>>)
    ensures r.Raise? <==> exists i :: 0 <= i < |rows| && key !in rows[i]
    ensures r.Raise? ==> r.exc == KeyError(key)
    ensures r.Ok? ==> (r.value != [] <==> exists i :: 0 <= i < |rows| && Truthy(rows[i][key]))
    ensures r.Ok? ==> forall v :: v in r.value ==> Truthy(v) && exists i :: 0 <= i < |rows| && rows[i][key] == v
  {
    if |rows| == 0 then Ok([])
    else if key !in rows[0] then Raise(KeyError(key))
    else
      match ErrorMessages(rows[1..], key)
      case Raise(e) => Raise(e)
      case Ok(rest) =>
        var v := rows[0][key];
        assert forall i :: 1 <= i < |rows| ==> rows[i] == rows[1..][i - 1];
        Ok(if Truthy(v) then [v] + rest else rest)
  }

  /** The messages list holds exactly one entry per row that carries a
      message. */
  lemma {:induction false} ErrorMessagesLength(rows: seq<Row>, key: string)
    requires ErrorMessages(rows, key).Ok?
    ensures |ErrorMessages(rows, key).value| == Count(HasMessage(key), rows)
  {
    if |rows| > 0 {
      ErrorMessagesLength(rows[1..], key);
    }
  }

  /** The message of row `i` sits in the list right after those of the rows
      before it. */
  lemma {:induction false} ErrorMessageAt(rows: seq<Row>, key: string, i: nat)
    requires ErrorMessages(rows, key).Ok?
    requires i < |rows| && Truthy(rows[i][key])
    ensures var messages := ErrorMessages(rows, key).value;
      Count(HasMessage(key), rows[..i]) < |messages| && messages[Count(HasMessage(key), rows[..i])] == rows[i][key]
  {
    var rest := rows[1..];
    var v := rows[0][key];
    var later := ErrorMessages(rest, key).value;
    assert ErrorMessages(rows, key).value == if Truthy(v) then [v] + later else later;
    if i > 0 {
      assert rows[i] == rest[i - 1];
      ErrorMessageAt(rest, key, i - 1);
      CountPrefix(HasMessage(key), rows, i);
    } else {
      assert rows[..i] == [];
    }
  }

  /** The messages list, as the comprehension builds it: one entry per row
      that carries a message, in row order. */
  lemma ErrorMessagesInOrder(rows: seq<Row>, key: string)
    requires ErrorMessages(rows, key).Ok?
    ensures var messages := ErrorMessages(rows, key).value;
      && |messages| == Count(HasMessage(key), rows)
      && forall i :: 0 <= i < |rows| && Truthy(rows[i][key]) ==>
           Count(HasMessage(key), rows[..i]) < |messages| && messages[Count(HasMessage(key), rows[..i])] == rows[i][key]
  {
    ErrorMessagesLength(rows, key);
    forall i | 0 <= i < |rows| && Truthy(rows[i][key])
      ensures var messages := ErrorMessages(rows, key).value;
        Count(HasMessage(key), rows[..i]) < |messages| && messages[Count(HasMessage(key), rows[..i])] == rows[i][key]
    {
      ErrorMessageAt(rows, key, i);
    }
  }

  /** The synthetic `BatchError` raised when parsed rows carry error messages. */
  function BatchFailure(py: Reflection, errors: seq<Value>): (e: Exc)
    ensures e.kind == BatchErrorKind && IsInstance(e, ValueErrorKind)
    ensures forall catch: set<Kind> :: Caught(e, catch)
  {
    BatchError(py.listText(errors))
  }

  /** Row mode: call the user function on `row` and fill in its output columns. */
  function WrapRow(p: Parallelizer, py: Reflection, names: OutputColumns, row: Row, kwargs: map<string, Value>): (r: Outcome<Unit>)
    ensures r.Ok? ==> r.value.RowUnit? && r.value.row.Keys == row.Keys + names.NameSet() && Untouched(r.value.row, row, names)
    ensures p.fn(RowUnit(row), kwargs).Ok? ==>
      r.Ok? && (names.Distinct() ==> Succeeded(r.value.row, names, p.fn(RowUnit(row), kwargs).value))
    ensures p.fn(RowUnit(row), kwargs).Raise? ==>
      var e := p.fn(RowUnit(row), kwargs).exc;
      && (r.Ok? <==> Recovers(p, e))
      && (r.Raise? ==> r.exc == e)
      && (r.Ok? && names.Distinct() ==> Failed(r.value.row, names, py, e))
  {
    var output := Initialise(row, names);
    match p.fn(RowUnit(row), kwargs)
    case Ok(response) => Ok(RowUnit(output[names.response := response]))
    case Raise(e) => if Recovers(p, e) then Ok(RowUnit(Annotate(output, names, py, e))) else Raise(e)
  }

  /** Batch mode: call the user function on `batch`, parse its response into
      rows, and turn any row-level error message into one `BatchError`. */
  function WrapBatch(p: Parallelizer, py: Reflection, names: OutputColumns, batch: seq<Row>, kwargs: map<string, Value>): (r: Outcome<Unit>)
    ensures r.Ok? ==> r.value.BatchUnit?
    // the user function raised, the parser is missing, or the parser raised:
    // every row of the copied batch records the error, or the error propagates
    ensures p.fn(BatchUnit(batch), kwargs).Raise? ==>
      RecoveredCopy(r, p, py, names, p.fn(BatchUnit(batch), kwargs).exc, batch)
    ensures p.fn(BatchUnit(batch), kwargs).Ok? && p.batchResponseParser.None? ==>
      RecoveredCopy(r, p, py, names, TypeError(NoneNotCallableMessage), batch)
    ensures p.fn(BatchUnit(batch), kwargs).Ok? && p.batchResponseParser.Some? ==>
      var parsed := p.batchResponseParser.value(batch, p.fn(BatchUnit(batch), kwargs).value, names);
      parsed.Raise? ==> RecoveredCopy(r, p, py, names, parsed.exc, batch)
    // a parsed row without an error-message column raises KeyError inside the
    // try; when recovered, the parsed rows record it
    ensures p.fn(BatchUnit(batch), kwargs).Ok? && p.batchResponseParser.Some? ==>
      var parsed := p.batchResponseParser.value(batch, p.fn(BatchUnit(batch), kwargs).value, names);
      parsed.Ok? && ErrorMessages(parsed.value, names.errorMessage).Raise? ==>
        RecoveredParsed(r, p, py, names, KeyError(names.errorMessage), parsed.value)
    // the parser's rows are returned as they are when none carries an error
    // message; otherwise a BatchError over the messages is raised and, in Log
    // mode, recorded on every parsed row, which keeps its response
    ensures p.fn(BatchUnit(batch), kwargs).Ok? && p.batchResponseParser.Some? ==>
      var parsed := p.batchResponseParser.value(batch, p.fn(BatchUnit(batch), kwargs).value, names);
      && (parsed.Ok? && ErrorMessages(parsed.value, names.errorMessage) == Ok([]) ==> r == Ok(BatchUnit(parsed.value)))
      && (parsed.Ok? && ErrorMessages(parsed.value, names.errorMessage).Ok? && ErrorMessages(parsed.value, names.errorMessage) != Ok([]) ==>
            && (r.Ok? <==> p.errorHandling == Log)
            && RecoveredParsed(r, p, py, names, BatchFailure(py, ErrorMessages(parsed.value, names.errorMessage).value), parsed.value))
    ensures r.Ok? && p.batchResponseParser.Some? && PreservesLength(p.batchResponseParser.value) ==>
      |r.value.rows| == |batch|
  {
    var output := Map(row => Initialise(row, names), batch);
    match p.fn(BatchUnit(batch), kwargs)
    case Raise(e) => Recover(p, py, names, e, output)
    case Ok(response) =>
      match p.batchResponseParser
      case None => Recover(p, py, names, TypeError(NoneNotCallableMessage), output)
      case Some(parse) =>
        match parse(batch, response, names)
        case Raise(e) => Recover(p, py, names, e, output)
        case Ok(parsed) =>
          match ErrorMessages(parsed, names.errorMessage)
          case Raise(e) => Recover(p, py, names, e, parsed)
          case Ok(errors) =>
            if errors != [] then Recover(p, py, names, BatchFailure(py, errors), parsed)
            else Ok(BatchUnit(parsed))
  }

  /** In Log mode, a batch whose parsed rows carry error messages comes back
      as the parsed rows, each annotated with one `BatchError` over all the
      messages. */
  lemma BatchErrorAnnotatesParsed(p: Parallelizer, py: Reflection, names: OutputColumns, batch: seq<Row>,
                                  kwargs: map<string, Value>, response: Value, parse: BatchResponseParser,
                                  parsed: seq<Row>, errors: seq<Value>)
    requires p.errorHandling == Log
    requires p.fn(BatchUnit(batch), kwargs) == Ok(response)
    requires p.batchResponseParser == Some(parse) && parse(batch, response, names) == Ok(parsed)
    requires ErrorMessages(parsed, names.errorMessage) == Ok(errors) && errors != []
    ensures WrapBatch(p, py, names, batch, kwargs) ==
      Ok(BatchUnit(Map(row => Annotate(row, names, py, BatchFailure(py, errors)), parsed)))
  {
    assert Recovers(p, BatchFailure(py, errors));
  }

  /** Annotating rows with the same exception describes it on every row and
      leaves each row's response as it was. */
  lemma AnnotatedRowsKeepResponses(rows: seq<Row>, names: OutputColumns, py: Reflection, e: Exc)
    requires names.Distinct()
    ensures var out := Map(row => Annotate(row, names, py, e), rows);
      forall i :: 0 <= i < |rows| ==>
        && Describes(out[i], names, py, e)
        && (names.response in rows[i] ==> out[i][names.response] == rows[i][names.response])
  {
    var out := Map(row => Annotate(row, names, py, e), rows);
    forall i | 0 <= i < |rows|
      ensures Describes(out[i], names, py, e)
      ensures names.response in rows[i] ==> out[i][names.response] == rows[i][names.response]
    {
      assert out[i] == Annotate(rows[i], names, py, e);
    }
  }

  /** In Log mode, when some parsed rows carry an error message, the whole
      batch records one `BatchError` over all the messages, yet every parsed
      row keeps the response the parser gave it. */
  lemma BatchErrorKeepsResponses(p: Parallelizer, py: Reflection, names: OutputColumns, batch: seq<Row>,
                                 kwargs: map<string, Value>, response: Value, parse: BatchResponseParser,
                                 parsed: seq<Row>, errors: seq<Value>)
    requires p.errorHandling == Log && names.Distinct()
    requires p.fn(BatchUnit(batch), kwargs) == Ok(response)
    requires p.batchResponseParser == Some(parse) && parse(batch, response, names) == Ok(parsed)
    requires ErrorMessages(parsed, names.errorMessage) == Ok(errors) && errors != []
    ensures WrapBatch(p, py, names, batch, kwargs).Ok?
    ensures var rows := WrapBatch(p, py, names, batch, kwargs).value.rows;
      && |rows| == |parsed|
      && forall i :: 0 <= i < |parsed| ==>
           && Describes(rows[i], names, py, BatchFailure(py, errors))
           && (names.response in parsed[i] ==> rows[i][names.response] == parsed[i][names.response])
  {
    var e := BatchFailure(py, errors);
    BatchErrorAnnotatesParsed(p, py, names, batch, kwargs, response, parse, parsed, errors);
    AnnotatedRowsKeepResponses(parsed, names, py, e);
  }

  /** The wrapper: truthiness of `row` and `batch` selects the branch, and a
      truthy row together with a truthy batch is a configuration error. */
  function Wrap(p: Parallelizer, py: Reflection, names: OutputColumns,
                row: Option<Row>, batch: Option<seq<Row>>, kwargs: map<string, Value>): (r: Outcome<Unit>)
    ensures RowGiven(row) && BatchGiven(batch) ==> r == Raise(ValueError(BothGivenMessage))
    ensures !RowGiven(row) && batch.None? ==> r == Raise(TypeError(NoneNotIterableMessage))
    ensures r.Ok? ==> (r.value.RowUnit? <==> RowGiven(row))
  {
    if RowGiven(row) && BatchGiven(batch) then Raise(ValueError(BothGivenMessage))
    else if RowGiven(row) then WrapRow(p, py, names, row.value, kwargs)
    else if batch.Some? then WrapBatch(p, py, names, batch.value, kwargs)
    else Raise(TypeError(NoneNotIterableMessage))
  }

  /** A truthy row together with a truthy batch is rejected before the user
      function is consulted: the outcome is the same whatever the function. */
  lemma BothGivenIgnoresFunction(p: Parallelizer, other: UserFunction, py: Reflection, names: OutputColumns,
                                 row: Option<Row>, batch: Option<seq<Row>>, kwargs: map<string, Value>)
    requires RowGiven(row) && BatchGiven(batch)
    ensures Wrap(p.(fn := other), py, names, row, batch, kwargs) == Wrap(p, py, names, row, batch, kwargs)
    ensures Wrap(p, py, names, row, batch, kwargs).Raise?
  {
  }

  /** In Fail mode nothing is recovered: whenever the wrapper returns, no
      returned row carries an error message. */
  lemma FailModeReturnsNoErrors(p: Parallelizer, py: Reflection, names: OutputColumns,
                                row: Option<Row>, batch: Option<seq<Row>>, kwargs: map<string, Value>)
    requires p.errorHandling == Fail && names.Distinct()
    requires Wrap(p, py, names, row, batch, kwargs).Ok?
    ensures var out := Wrap(p, py, names, row, batch, kwargs).value.Rows();
      forall i :: 0 <= i < |out| ==> names.errorMessage in out[i] && !Truthy(out[i][names.errorMessage])
  {
  }
}

=== FILE: kwargs.dfy ===
/** Keyword-argument sanitising in `run`: what reaches the wrapper and, from
    there, the user function. */
module Kwargs {
  import opened Values
  import opened Setup

  /** A keyword argument of a submitted wrapper call: the generated output
      column names, or a value the caller passed to `run`. */
  datatype PoolArg = ColumnNames(names: OutputColumns) | Forwarded(value: Value)

  const NamesKey: string := "output_column_names"
  const ParserKey: string := "batch_response_parser"

  /** Keyword arguments the pool call reserves for itself. */
  const Reserved: set<string> := {"function", "row", "batch"}

  /** The keys `run` strips from the caller's keyword arguments. */
  function Stripped(batchSupport: bool): set<string> {
    if batchSupport then Reserved else Reserved + {ParserKey}
  }

  /** `pool_kwargs`: the names first, overridden by the caller's arguments,
      then the reserved keys removed, and the parser key too outside batch mode. */
  function PoolKwargs(names: OutputColumns, kwargs: map<string, Value>, batchSupport: bool): (pool: map<string, PoolArg>)
    ensures pool.Keys == ({NamesKey} + kwargs.Keys) - Stripped(batchSupport)
    ensures NamesKey !in kwargs ==> pool[NamesKey] == ColumnNames(names)
    ensures forall k :: k in kwargs && k !in Stripped(batchSupport) ==> pool[k] == Forwarded(kwargs[k])
  {
    var merged := map[NamesKey := ColumnNames(names)] + map k | k in kwargs :: Forwarded(kwargs[k]);
    var pool := merged - Reserved;
    if !batchSupport && ParserKey in pool then pool - {ParserKey} else pool
  }

  /** `**function_kwargs` inside the wrapper: every pool argument except the
      one bound to its `output_column_names` parameter. */
  function FunctionKwargs(pool: map<string, PoolArg>): map<string, Value> {
    map k | k in pool && k != NamesKey && pool[k].Forwarded? :: pool[k].value
  }

  /** The user function sees exactly the caller's keyword arguments minus the
      reserved keys and `output_column_names`, and minus
      `batch_response_parser` outside batch mode, with unchanged values. */
  lemma ForwardedKwargs(names: OutputColumns, kwargs: map<string, Value>, batchSupport: bool)
    ensures var forwarded := FunctionKwargs(PoolKwargs(names, kwargs, batchSupport));
      && forwarded.Keys == kwargs.Keys - Stripped(batchSupport) - {NamesKey}
      && forall k :: k in forwarded ==> forwarded[k] == kwargs[k]
  {
  }
}

=== FILE: sequences.dfy ===
/** Sequence helpers shared by the unit builder and the result assembler:
    flattening, element-wise maps, counting, and reordering by a permutation. */
module Sequences {

  /** Concatenation of a list of lists (`more_itertools.flatten` made into a list). */
  function Flatten<T>(xss: seq<seq<T>>): seq<T> {
    if |xss| == 0 then [] else xss[0] + Flatten(xss[1..])
  }

  function Map<T, U>(f: T -> U, xs: seq<T>): (ys: seq<U>)
    ensures |ys| == |xs|
  {
    seq(|xs|, i requires 0 <= i < |xs| => f(xs[i]))
  }

  /** The number of elements that satisfy `p`. */
  function Count<T>(p: T -> bool, xs: seq<T>): (n: nat)
    ensures n <= |xs|
  {
    if |xs| == 0 then 0 else (if p(xs[0]) then 1 else 0) + Count(p, xs[1..])
  }

  /** Counting over a non-empty prefix: the first element, then the rest of
      the prefix taken from the tail. */
  lemma CountPrefix<T>(p: T -> bool, xs: seq<T>, i: nat)
    requires 0 < i <= |xs|
    ensures Count(p, xs[..i]) == (if p(xs[0]) then 1 else 0) + Count(p, xs[1..][..i - 1])
  {
    assert xs[..i][1..] == xs[1..][..i - 1];
  }

  /** `[0, 1, ..., n - 1]`. */
  function Range(n: nat): (r: seq<nat>)
    ensures |r| == n
    ensures forall i :: 0 <= i < n ==> r[i] == i
  {
    seq(n, i => i)
  }

  /** `order` lists every index below `n` exactly once. */
  predicate IsPermutation(order: seq<nat>, n: nat) {
    multiset(order) == multiset(Range(n))
  }

  predicate InBounds(order: seq<nat>, n: nat) {
    forall k :: 0 <= k < |order| ==> order[k] < n
  }

  /** The elements of `xs` in the order `order` visits them. */
  function Apply<T>(xs: seq<T>, order: seq<nat>): (ys: seq<T>)
    requires InBounds(order, |xs|)
    ensures |ys| == |order|
  {
    seq(|order|, k requires 0 <= k < |order| => xs[order[k]])
  }

  lemma {:induction false} FlattenConcat<T>(a: seq<seq<T>>, b: seq<seq<T>>)
    ensures Flatten(a + b) == Flatten(a) + Flatten(b)
  {
    if |a| == 0 {
      assert a + b == b;
    } else {
      assert (a + b)[1..] == a[1..] + b;
      FlattenConcat(a[1..], b);
    }
  }

  lemma {:induction false} CountConcat<T>(p: T -> bool, a: seq<T>, b: seq<T>)
    ensures Count(p, a + b) == Count(p, a) + Count(p, b)
  {
    if |a| == 0 {
      assert a + b == b;
    } else {
      assert (a + b)[1..] == a[1..] + b;
      CountConcat(p, a[1..], b);
    }
  }

  lemma PermutationInBounds(order: seq<nat>, n: nat)
    requires IsPermutation(order, n)
    ensures |order| == n
    ensures InBounds(order, n)
  {
    assert |order| == |multiset(order)| == |multiset(Range(n))| == n;
    forall k | 0 <= k < |order|
      ensures order[k] < n
    {
      assert order[k] in multiset(order);
      assert order[k] in Range(n);
    }
  }

  /** Two sequences with the same elements: the first element of one sits at
      some position `j` of the other, and removing both leaves equal multisets. */
  lemma MatchFirst<T>(a: seq<T>, b: seq<T>) returns (j: nat)
    requires |a| > 0 && multiset(a) == multiset(b)
    ensures j < |b| && b[j] == a[0]
    ensures multiset(a[1..]) == multiset(b[..j] + b[j + 1..])
  {
    assert a[0] in multiset(b);
    j :| 0 <= j < |b| && b[j] == a[0];
    assert a == [a[0]] + a[1..];
    assert b == b[..j] + [b[j]] + b[j + 1..];
    assert multiset(a[1..]) == multiset(a) - multiset{a[0]};
    assert multiset(b[..j] + b[j + 1..]) == multiset(b) - multiset{b[j]};
  }

  lemma {:induction false} ApplyMultiset<T>(xs: seq<T>, o1: seq<nat>, o2: seq<nat>)
    requires InBounds(o1, |xs|) && InBounds(o2, |xs|)
    requires multiset(o1) == multiset(o2)
    ensures multiset(Apply(xs, o1)) == multiset(Apply(xs, o2))
    decreases |o1|
  {
    if |o1| == 0 {
      assert |o2| == |multiset(o2)| == 0;
    } else {
      var j := MatchFirst(o1, o2);
      var rest := o2[..j] + o2[j + 1..];
      ApplyMultiset(xs, o1[1..], rest);
      assert Apply(xs, o1) == [xs[o1[0]]] + Apply(xs, o1[1..]);
      assert Apply(xs, o2) == Apply(xs, o2[..j]) + [xs[o2[j]]] + Apply(xs, o2[j + 1..]);
      assert Apply(xs, rest) == Apply(xs, o2[..j]) + Apply(xs, o2[j + 1..]);
    }
  }

  lemma {:induction false} MapMultiset<T, U>(f: T -> U, a: seq<T>, b: seq<T>)
    requires multiset(a) == multiset(b)
    ensures multiset(Map(f, a)) == multiset(Map(f, b))
    decreases |a|
  {
    if |a| == 0 {
      assert |b| == |multiset(b)| == 0;
    } else {
      var j := MatchFirst(a, b);
      var rest := b[..j] + b[j + 1..];
      MapMultiset(f, a[1..], rest);
      assert Map(f, a) == [f(a[0])] + Map(f, a[1..]);
      assert Map(f, b) == Map(f, b[..j]) + [f(b[j])] + Map(f, b[j + 1..]);
      assert Map(f, rest) == Map(f, b[..j]) + Map(f, b[j + 1..]);
    }
  }

  lemma {:induction false} FlattenMultiset<T>(a: seq<seq<T>>, b: seq<seq<T>>)
    requires multiset(a) == multiset(b)
    ensures multiset(Flatten(a)) == multiset(Flatten(b))
    decreases |a|
  {
    if |a| == 0 {
      assert |b| == |multiset(b)| == 0;
    } else {
      var j := MatchFirst(a, b);
      var rest := b[..j] + b[j + 1..];
      FlattenMultiset(a[1..], rest);
      assert b == b[..j] + ([b[j]] + b[j + 1..]);
      FlattenConcat(b[..j], [b[j]] + b[j + 1..]);
      FlattenConcat([b[j]], b[j + 1..]);
      assert Flatten([b[j]]) == b[j] by {
        assert [b[j]][1..] == [];
      }
      FlattenConcat(b[..j], b[j + 1..]);
    }
  }

  lemma {:induction false} CountMultiset<T>(p: T -> bool, a: seq<T>, b: seq<T>)
    requires multiset(a) == multiset(b)
    ensures Count(p, a) == Count(p, b)
    decreases |a|
  {
    if |a| == 0 {
      assert |b| == |multiset(b)| == 0;
    } else {
      var j := MatchFirst(a, b);
      var rest := b[..j] + b[j + 1..];
      CountMultiset(p, a[1..], rest);
      assert b == b[..j] + ([b[j]] + b[j + 1..]);
      CountConcat(p, b[..j], [b[j]] + b[j + 1..]);
      CountConcat(p, [b[j]], b[j + 1..]);
      assert [b[j]][1..] == [];
      CountConcat(p, b[..j], b[j + 1..]);
    }
  }

  /** Counting two predicates that agree position by position gives the same number. */
  lemma {:induction false} CountPointwise<T, U>(p: T -> bool, q: U -> bool, xs: seq<T>, ys: seq<U>)
    requires |xs| == |ys|
    requires forall i :: 0 <= i < |xs| ==> p(xs[i]) == q(ys[i])
    ensures Count(p, xs) == Count(q, ys)
  {
    if |xs| > 0 {
      CountPointwise(p, q, xs[1..], ys[1..]);
    }
  }

  /** Flattening lists of the same lengths gives lists of the same length. */
  lemma {:induction false} FlattenSameShape<T, U>(xss: seq<seq<T>>, yss: seq<seq<U>>)
    requires |xss| == |yss|
    requires forall i :: 0 <= i < |xss| ==> |xss[i]| == |yss[i]|
    ensures |Flatten(xss)| == |Flatten(yss)|
  {
    if |xss| > 0 {
      FlattenSameShape(xss[1..], yss[1..]);
    }
  }
}

=== FILE: setup.dfy ===
/** The parallelizer's configuration, its construction-time validation, and
    the output column names. */
module Setup {
  import opened Values
  import opened Errors

  /** How errors raised by the user function are handled. */
  datatype ErrorHandling = Log | Fail

  /** The four output column names, in their fixed order. */
  datatype OutputColumns = OutputColumns(
    response: string,
    errorMessage: string,
    errorType: string,
    errorRaw: string)
  {
    function Fields(): seq<string> {
      [response, errorMessage, errorType, errorRaw]
    }

    function NameSet(): set<string> {
      {response, errorMessage, errorType, errorRaw}
    }

    function ErrorFields(): set<string> {
      {errorMessage, errorType, errorRaw}
    }

    predicate Distinct() {
      && response != errorMessage && response != errorType && response != errorRaw
      && errorMessage != errorType && errorMessage != errorRaw
      && errorType != errorRaw
    }
  }

  /** The user function, called with `row=` or `batch=` plus keyword arguments. */
  type UserFunction = (Unit, map<string, Value>) -> Outcome<Value>

  /** The batch response parser, called with the batch, the raw response and
      the output column names; it returns one row per parsed result. */
  type BatchResponseParser = (seq<Row>, Value, OutputColumns) -> Outcome<seq<Row>>

  /** The parser returns one row per row of the batch whenever it returns. */
  ghost predicate PreservesLength(parse: BatchResponseParser) {
    forall batch, response, names :: parse(batch, response, names).Ok? ==> |parse(batch, response, names).value| == |batch|
  }

  /** `generate_unique(name, existing_names, prefix)`, whose code is not part
      of this model. */
  type GenerateUnique = (string, seq<string>, string) -> string

  const DefaultParallelWorkers: int := 4
  const DefaultBatchSize: int := 10
  const DefaultOutputColumnPrefix: string := "output"

  const MissingExceptionsMessage: string := "Please set at least one exception in exceptions_to_catch"
  const MissingParserMessage: string := "Please provide a valid batch_response_parser function"

  /** A constructed `DataFrameParallelizer`. */
  datatype Parallelizer = Parallelizer(
    fn: UserFunction,
    errorHandling: ErrorHandling,
    exceptionsToCatch: set<Kind>,
    parallelWorkers: int,
    batchSupport: bool,
    batchSize: int,
    batchResponseParser: Option<BatchResponseParser>,
    outputColumnPrefix: string,
    verbose: bool)

  /** Whether a configuration passes the constructor's two checks. */
  predicate ValidConfiguration(
    errorHandling: ErrorHandling, exceptionsToCatch: set<Kind>,
    batchSupport: bool, batchResponseParser: Option<BatchResponseParser>)
  {
    && (errorHandling == Fail || exceptionsToCatch != {})
    && (!batchSupport || batchResponseParser.Some?)
  }

  /** The constructor: it rejects Log mode with nothing to catch, then batch
      support without a parser, and otherwise stores its arguments. */
  function New(
    fn: UserFunction,
    errorHandling: ErrorHandling,
    exceptionsToCatch: set<Kind>,
    parallelWorkers: int,
    batchSupport: bool,
    batchSize: int,
    batchResponseParser: Option<BatchResponseParser>,
    outputColumnPrefix: string,
    verbose: bool): (r: Outcome<Parallelizer>)
    ensures r.Ok? <==> ValidConfiguration(errorHandling, exceptionsToCatch, batchSupport, batchResponseParser)
    ensures errorHandling == Log && exceptionsToCatch == {} ==>
      r == Raise(ValueError(MissingExceptionsMessage))
    ensures (errorHandling == Fail || exceptionsToCatch != {}) && batchSupport && batchResponseParser.None? ==>
      r == Raise(ValueError(MissingParserMessage))
    ensures r.Ok? ==>
      && r.value.fn == fn
      && r.value.errorHandling == errorHandling
      && r.value.exceptionsToCatch == exceptionsToCatch
      && r.value.parallelWorkers == parallelWorkers
      && r.value.batchSupport == batchSupport
      && r.value.batchSize == batchSize
      && r.value.batchResponseParser == batchResponseParser
      && r.value.outputColumnPrefix == outputColumnPrefix
      && r.value.verbose == verbose
  {
    if errorHandling == Log && exceptionsToCatch == {} then
      Raise(ValueError(MissingExceptionsMessage))
    else if batchSupport && batchResponseParser.None? then
      Raise(ValueError(MissingParserMessage))
    else
      Ok(Parallelizer(fn, errorHandling, exceptionsToCatch, parallelWorkers, batchSupport,
                      batchSize, batchResponseParser, outputColumnPrefix, verbose))
  }

  /** With every argument but the function left at its default, the
      constructor fails: Log mode needs at least one exception to catch. */
  lemma DefaultsNeedExceptions(fn: UserFunction)
    ensures New(fn, Log, {}, DefaultParallelWorkers, false, DefaultBatchSize, None,
                DefaultOutputColumnPrefix, false) == Raise(ValueError(MissingExceptionsMessage))
  {
  }

  /** The output column names: each logical field name is made unique against
      the input columns alone, not against the names generated before it. */
  function OutputColumnNames(existing: seq<string>, prefix: string, generate: GenerateUnique): OutputColumns
  {
    OutputColumns(
      generate("response", existing, prefix),
      generate("error_message", existing, prefix),
      generate("error_type", existing, prefix),
      generate("error_raw", existing, prefix))
  }

  /** The logical output fields, in their fixed order. */
  const LogicalFields: seq<string> := ["response", "error_message", "error_type", "error_raw"]

  /** Output names that are distinct and that no input column uses. */
  predicate FreshNames(input: seq<string>, names: OutputColumns) {
    names.Distinct() && forall c :: c in input ==> c !in names.NameSet()
  }

  /** The generated names are fresh exactly when `generate` avoids the input
      columns on every logical field and gives the four fields four different
      names: generating each name against the input columns alone guarantees
      neither. */
  lemma OutputColumnNamesFresh(existing: seq<string>, prefix: string, generate: GenerateUnique)
    ensures FreshNames(existing, OutputColumnNames(existing, prefix, generate)) <==>
      && (forall i :: 0 <= i < |LogicalFields| ==> generate(LogicalFields[i], existing, prefix) !in existing)
      && (forall i, j :: 0 <= i < j < |LogicalFields| ==>
            generate(LogicalFields[i], existing, prefix) != generate(LogicalFields[j], existing, prefix))
  {
    var names := OutputColumnNames(existing, prefix, generate);
    var g := seq(4, i requires 0 <= i < 4 => generate(LogicalFields[i], existing, prefix));
    assert g == [names.response, names.errorMessage, names.errorType, names.errorRaw];
    assert |LogicalFields| == 4;
    assert (forall i :: 0 <= i < 4 ==> g[i] !in existing)
       <==> g[0] !in existing && g[1] !in existing && g[2] !in existing && g[3] !in existing;
    assert (forall i, j :: 0 <= i < j < 4 ==> g[i] != g[j])
       <==> g[0] != g[1] && g[0] != g[2] && g[0] != g[3] && g[1] != g[2] && g[1] != g[3] && g[2] != g[3];
  }
}

=== FILE: values.dfy ===
/** Python values as the parallelizer sees them: the cells of a DataFrame
    row, keyword arguments, and the responses of the user function. */
module Values {

  datatype Option<+T> = None | Some(value: T)

  /** A Python value. `Float` is a `float`; `Object` stands for any other
      object (a tuple, a set, a `Decimal`, a class instance, ...), whose
      truthiness, decided by its `__bool__` or `__len__`, it carries. */
  datatype Value =
    | Text(s: string)
    | Int(i: int)
    | Bool(b: bool)
    | NoneValue
    | List(items: seq<Value>)
    | Dict(entries: map<string, Value>)
    | Float(x: real)
    | Object(id: nat, truthy: bool)

  /** The empty-string sentinel every output column starts with. */
  const Empty: Value := Text("")

  /** Python truthiness, as used by `if value:`. */
  predicate Truthy(v: Value) {
    match v
    case Text(s) => s != ""
    case Int(i) => i != 0
    case Bool(b) => b
    case NoneValue => false
    case List(items) => items != []
    case Dict(entries) => entries != map[]
    case Float(x) => x != 0.0
    case Object(_, truthy) => truthy
  }

  /** One DataFrame row as `Series.to_dict()` gives it: column name to cell. */
  type Row = map<string, Value>

  /** One unit of work: a single row (row mode) or a list of rows (batch mode). */
  datatype Unit = RowUnit(row: Row) | BatchUnit(rows: seq<Row>) {
    /** The rows the unit carries, in order. */
    function Rows(): seq<Row> {
      if RowUnit? then [row] else rows
    }
  }
}
